=== FILE: README.md ===
# astro-kube page behaviour, modelled in Dafny

This project models the client-side script of the astro-kube marketing site
(`src/main.js`). That script wires DOM events to class and style toggles. Behind
the DOM calls sit a few small state machines, and each one is modelled here as
an immutable record with pure transition functions:

- **Navigation** (`navigation.dfy`): the header gets its "scrolled" style when
  the scroll offset exceeds 50 px. The burger button flips three menu flags
  together. In-page anchor links close the menu and scroll to the target
  minus an 80 px header offset.
- **Reveal** (`reveal.dfy`): the intersection-observer callback adds a
  permanent marker to every intersecting element.
- **Tabs** (`tabs.dfy`): a click clears every button and panel, then
  activates the clicked button and the first panel whose id is the button's
  `data-tab`. An empty `data-tab` shows no panel. A button without the
  attribute looks up the id `"undefined"`, so it shows a panel with that id
  if there is one.
- **Gauge** (`gauge.dfy`): the stream section's progress fill, computed on
  JavaScript numbers (finite, ±Infinity, NaN).
- **Phone** (`phone.dfy`): the phone field's filter, `replace(/[^0-9+]/g, '')`.
- **NumberParsing** (`parse_int.dfy`): `parseInt` with the radix omitted, as
  section 19.2.5 of ECMA-262 defines it. It skips leading white space, reads a
  sign, lets a `0x`/`0X` prefix select radix 16, converts the longest digit
  prefix, and returns NaN (`None`) when there are no digits.
- **ContactForm** (`contact_form.dfy`): the arithmetic challenge with addends
  in [1, 10], the intercepted submit, the 1.5 s simulated request, and
  `resetForm`.
- **Consent** (`consent.dfy`): the cookie banner. It is scheduled 2 s after
  load when the `astro_cookie_accepted` flag is missing, and the accept button
  stores `"true"` and hides it.
- **Page** (`page.dfy`): all of the above as one event-driven machine. It has
  the state after page load, one `Step` per dispatched event, and an
  invariant that holds after every sequence of events from a page whose
  markup marks at most one tab button and at most one panel `active`. The
  script accepts any markup; with more active tabs in the markup the
  invariant fails only until the first tab click.

Some inputs are taken as parameters:

- Randomness: the two values `r` of `Math.random()` in [0, 1).
- Timers: explicit "timer fired" events. Pending submit timers are counted and
  never cancelled, as in the source.
- Storage: a `map<string, string>` standing for `localStorage`.
- DOM lookups: `querySelector` results are a map from selector to `offsetTop`.

Some details of `src/main.js` are easy to miss, and the model keeps them:

- An anchor click closes the menu only when its target element exists
  (src/main.js:51-56). A link to a missing section leaves an open menu open.
- The phone filter keeps every `+`, wherever it appears (src/main.js:136).
- `parseInt` accepts a leading integer with trailing text (`"7abc"` is 7) and
  reads `"0x11"` as 17 (src/main.js:147). So an answer with non-numeric text
  in it can still be accepted.
- `!localStorage.getItem(...)` also holds for a stored empty string
  (src/main.js:181). So the banner is scheduled when the flag is absent or
  `""`, and any other stored value, not only `"true"`, suppresses it.
- A button whose `data-tab` is empty shows no panel (src/main.js:91). An empty
  string is nobody's id, even for an element whose `id` attribute is empty.

The model also brings out some behaviour of the source that is worth knowing:

- Accepting cookies before the 2 s timer fires does not cancel that timer
  (`Consent.AcceptBeforeTimerStillShows`).
- A reset before the 1.5 s timer fires is undone when the timer fires
  (`ContactForm.StaleTimerHidesResetForm`).
- The submit button keeps its "sending" label after success and after reset
  (`ContactForm.Lifecycle`).
- Without `#captcha-question`, `captchaResult` stays undefined, so every
  submission is rejected (`ContactForm.NoQuestionRejectsAll`).

## Model

| member | source | states |
|---|---|---|
| Navigation.OnScroll | src/main.js:27-33 | the header is "scrolled" exactly when the scroll offset is above 50 |
| Navigation.ScrollForgetsHistory | src/main.js:27-33 | the header state after a scroll depends only on that scroll's offset, so repeated scrolls are idempotent |
| Navigation.ToggleBurger | src/main.js:36-42 | with a burger, each of the three flags is flipped; without one, nothing changes |
| Navigation.ToggleTwiceIsIdentity | src/main.js:37-41 | two burger clicks restore the original menu state |
| Navigation.ToggleKeepsSynced | src/main.js:37-41 | the three flags stay equal, and a click opens a closed menu and closes an open one |
| Navigation.AnchorClick | src/main.js:45-65 | `#` does nothing; an unmatched target or a missing burger changes nothing; otherwise the menu is closed and the scroll target is `offsetTop - 80` |
| Navigation.AnchorClosesMenuIffScrolling | src/main.js:48-62 | the menu changes exactly when a scroll is requested, then it is closed and synced, and a repeat click changes nothing more |
| Reveal.OnEntries | src/main.js:69-75 | after a batch, the revealed set is the old set plus the targets of the intersecting entries |
| Reveal.RevealIsMonotone | src/main.js:70-74 | nothing already revealed is removed, and every intersecting entry ends up revealed |
| Reveal.RevealOnlyIntersecting | src/main.js:70-74 | an element with no intersecting entry of its own does not become revealed |
| Reveal.NonIntersectingIsNoOp | src/main.js:71-73 | a non-intersecting entry anywhere in a batch changes nothing |
| Reveal.BatchesCompose | src/main.js:69-75 | two batches in a row have the effect of their concatenation |
| Reveal.RevealIdempotent | src/main.js:69-75 | replaying a batch reveals nothing new |
| Reveal.RevealStaysObserved | src/main.js:77 | when the browser reports only observed `.reveal` elements, only those are ever revealed |
| Tabs.FirstWithId | src/main.js:91 | the search gives the first panel in document order with the id, or none exactly when no panel has it |
| Tabs.FindPanel | src/main.js:91 | `getElementById` finds nothing for the empty string, and otherwise the first panel with the id; it finds none exactly when the id is empty or no panel has it |
| Tabs.ClearAll | src/main.js:87-88 | every button and panel is deactivated and their attributes are kept |
| Tabs.Click | src/main.js:84-96 | exactly the clicked button is active; the active panels are exactly the first panel whose id is the button's `data-tab` (none if no panel has it, and none for an empty `data-tab`; a button without `data-tab` looks up `"undefined"`); attributes are unchanged |
| Tabs.ClickForgetsHistory | src/main.js:85-93 | the outcome of a click does not depend on which tab was active before |
| Tabs.ClickIdempotent | src/main.js:84-96 | a second click on the same button changes nothing |
| Tabs.EmptyTabShowsNoPanel | src/main.js:90-93 | a click on a button whose `data-tab` is empty activates the button and no panel, even with a panel whose id is empty |
| Tabs.ClickWithoutPanel | src/main.js:90-95 | a button whose `data-tab` names no panel still becomes active, and no panel is shown |
| Gauge.Percent | src/main.js:109-110 | the fill is a percentage in [0, 100], or NaN exactly when numerator and denominator are both 0; with a positive denominator it is the clamped ratio |
| Gauge.PercentEnds | src/main.js:109-110 | with a positive denominator: 0 before the section's top enters the viewport, 100 once it is scrolled past by its own height |
| Gauge.PercentMonotone | src/main.js:109-110 | with a positive denominator, scrolling down never lowers the fill |
| Phone.Sanitize | src/main.js:136 | the output holds only `0`-`9` and `+`, and keeps every occurrence of each of them |
| Phone.SanitizeIsSubsequence | src/main.js:136 | the output is an order-preserving subsequence of the input |
| Phone.SanitizeUnique | src/main.js:136 | every clean subsequence that keeps all allowed characters equals the output |
| Phone.SanitizeFixesExactlyClean | src/main.js:136 | the filter leaves a value unchanged if and only if it is already clean |
| Phone.SanitizeIdempotent | src/main.js:136 | filtering twice is filtering once |
| Phone.SanitizeAppend | src/main.js:136 | filtering distributes over concatenation |
| NumberParsing.TrimStart | src/main.js:147 | only leading white-space characters are dropped, and all of them are |
| NumberParsing.DigitRun | src/main.js:147 | the digit prefix used by the parse is the longest one |
| NumberParsing.ParseIntRoundTrip | src/main.js:147 | parsing the decimal notation of any integer gives that integer back |
| NumberParsing.ParseIntDecimalPrefix | src/main.js:147 | trailing text that does not continue the number is ignored, except `0` followed by `x`/`X` |
| NumberParsing.ParseIntSkipsWhiteSpace | src/main.js:147 | a white-space prefix never changes the parse |
| NumberParsing.ParseInt | src/main.js:147 | a string without a single decimal digit in it, the empty string included, parses to NaN |
| NumberParsing.SplitExists | src/main.js:147 | every string splits into leading white space, at most one sign, and the rest, as `parseInt` reads it |
| NumberParsing.SplitReading | src/main.js:147 | a split string reads as its sign applied to the unsigned reading of the rest |
| NumberParsing.ParseIntIsNaN | src/main.js:147 | the result is NaN exactly when no digit of the selected radix follows the white space and sign (no decimal digit first, or nothing hexadecimal after `0x`/`0X`) |
| NumberParsing.ParseIntDecimal | src/main.js:147 | white space, a sign (`+`, `-` or none), any decimal digits (leading zeros allowed) and text that does not continue them parse to the signed value of the digits, unless the digits are a lone `0` followed by `x`/`X` |
| NumberParsing.ParseIntHexadecimal | src/main.js:147 | white space, a sign, `0x` or `0X`, hexadecimal digits and text that does not continue them parse to the signed hexadecimal value |
| NumberParsing.TrimmedNeedsADigit | src/main.js:147 | after the leading white space is skipped, a sign and a `0x` prefix cannot make a number out of text with no decimal digit |
| NumberParsing.ParseIntBareHexPrefix | src/main.js:147 | `"0x"` alone is NaN |
| NumberParsing.ParseIntHex | src/main.js:147 | `"0x11"` parses to 17 |
| ContactForm.Addend | src/main.js:127-128 | `floor(r*10)+1` for `r` in [0, 1) is an addend in [1, 10] |
| ContactForm.AddendCoversRange | src/main.js:127-128 | every addend in [1, 10] is produced by some draw |
| ContactForm.Generate | src/main.js:125-131 | with a question element, the stored sum is the sum of the displayed addends and lies in [2, 20]; without one, nothing changes |
| ContactForm.Init | src/main.js:122-141 | at load the form is valid and idle, and a sum is stored exactly when the question element exists |
| ContactForm.PhoneInput | src/main.js:134-138 | after each input the phone field is clean and a subsequence of what was typed |
| ContactForm.Accepts | src/main.js:147 | only an answer with a decimal digit in it can pass; with a consistent challenge, an answer passes if and only if a question is shown and the answer parses to the sum of its two addends |
| ContactForm.Reject | src/main.js:147-152 | a rejected answer empties the answer field and shows a new challenge; every other field, the presence of `#captcha-question` included, is unchanged, the challenge too when that element is missing, and the form stays valid |
| ContactForm.Start | src/main.js:154-163 | an accepted answer sets loading and the "sending" label and starts one more timer, changing nothing else |
| ContactForm.Submit | src/main.js:143-164 | a submit takes the accept branch exactly when the answer passes the check, and the reject branch otherwise; validity is kept |
| ContactForm.SubmitTimerFired | src/main.js:159-163 | the form is hidden, success is shown, loading is cleared, and one timer is consumed |
| ContactForm.ResetForm | src/main.js:168-173 | the form is shown, success is hidden, the fields are emptied and the challenge regenerated; nothing else changes (the presence of `#captcha-question`, the button, pending timers), the challenge stays as it was when that element is missing, and the form stays valid |
| ContactForm.SubmitStartsIffAnswerIsSum | src/main.js:147-156 | a request starts if and only if the parsed answer equals the sum of the displayed addends |
| ContactForm.NaNIsRejected | src/main.js:147-152 | an answer that parses to NaN is always rejected and the lifecycle stays where it was |
| ContactForm.NoQuestionRejectsAll | src/main.js:122-152 | without a question element the sum stays undefined and every submit is rejected |
| ContactForm.Lifecycle | src/main.js:143-173 | Idle, then submit to Loading, the timer to Success, and reset back to Idle with a new challenge |
| ContactForm.StaleTimerHidesResetForm | src/main.js:159-173 | a timer pending across a reset hides the fresh form and shows success again |
| Consent.ConsentMissing | src/main.js:181 | `!getItem` holds exactly when the key is absent or holds the empty string; a stored `"true"` never counts as missing |
| Consent.Startup | src/main.js:179-185 | the banner starts hidden, and its timer is scheduled exactly when it is present and the flag is absent or empty |
| Consent.ShowTimerFired | src/main.js:182-184 | the timer makes the banner visible and leaves storage alone |
| Consent.Accept | src/main.js:187-190 | the flag becomes `"true"`, the banner is hidden, and other storage keys are untouched |
| Consent.AcceptIdempotent | src/main.js:187-190 | accepting twice is accepting once |
| Consent.NeverShownAfterConsent | src/main.js:181-190 | once any non-empty value is stored and no timer is pending, the banner stays hidden whatever follows and the flag stays non-empty; a stored `"true"` stays `"true"` |
| Consent.ReloadAfterAccept | src/main.js:181-190 | after accepting and reloading, no timer is scheduled and the banner never shows |
| Consent.ShownWhenConsentMissing | src/main.js:181-185 | with the flag absent or empty, the banner shows once its timer fires |
| Consent.AcceptBeforeTimerStillShows | src/main.js:182-190 | with the flag absent or empty, accepting before the timer fires does not stop the timer from showing the banner, though `"true"` is stored |
| Page.Step | src/main.js:12-192 | each event changes only the part of the page its handler writes: scrolls the header and gauge, burger and anchor clicks the menu, intersections the revealed set (which only grows), tab clicks the tabs, form events the form, banner events the banner, through `Consent.Dispatch` |
| Page.Load | src/main.js:12-192 | for any markup: header not scrolled, menu closed, nothing revealed, no gauge fill, the challenge generated, and the banner timer scheduled exactly when the banner is present and consent is missing; when the markup marks at most one tab button and at most one panel active, the loaded page satisfies the invariant |
| Page.StepKeepsInv | src/main.js:12-192 | every handler keeps the page invariant: synced menu, at most one active tab and panel, gauge in range or NaN, clean phone, consistent challenge, loading only with a timer pending |
| Page.RunKeepsInv | src/main.js:12-192 | the page invariant, once it holds, holds after any sequence of events |
| Page.LoadedRunKeepsInv | src/main.js:12-192 | from the load of a page whose markup marks at most one tab button and at most one panel active, the invariant holds after any sequence of events |
| Page.RunBannerIsReplay | src/main.js:179-191 | over any run of page events the banner ends exactly as replaying only its own events, in order, would leave it |
| Page.LoadedWithConsentNeverShowsBanner | src/main.js:179-191 | a page loaded with a non-empty consent flag never shows the banner, whatever events follow |
| Page.RunKeepsRevealed | src/main.js:69-77 | revealed elements stay revealed over any sequence of events |
| Page.RunKeepsConsent | src/main.js:181-190 | a non-empty stored flag stays non-empty over any sequence of events, and a stored `"true"` stays `"true"` |

## Left out

- DOM plumbing: element lookups, `addEventListener`, `classList` and `style` writes, and `innerHTML`/`innerText`. They appear as record fields.
- Missing elements. The model covers a missing burger, `#captcha-question`, the stream section and the cookie elements. Every other element is assumed present. Here is what the source does without each one:
  - `#header`: every scroll throws at src/main.js:29 or 31 before the class changes. The gauge has its own listener and still updates.
  - `#nav-menu` with a burger present: a burger click throws at src/main.js:39 after flipping only the burger's class. An anchor click throws at src/main.js:55 after clearing only the burger's class, and no scroll happens.
  - `#main-form`: src/main.js:140 skips the whole block. `generateCaptcha` never runs and no submit handler is installed. `resetForm` throws at src/main.js:169. `ContactForm.Init` always generates a challenge and so does not model this case.
  - `#captcha-answer`: every submit throws at src/main.js:147 before anything changes.
  - `#submit-btn`: an accepted submit throws at src/main.js:155. No loading class is set and no timer starts.
  - `#form-success`: the timer callback throws at src/main.js:161, after hiding the form. `btn--loading` is then never removed. `resetForm` throws at src/main.js:171, after showing the form and before regenerating the challenge.
  - `#phone-input`: src/main.js:134 installs no filter.
- `lucide.createIcons()` is an external icon library, and its calls (on load and after a tab click) are not modelled.
- `alert` and the smooth-scroll mechanics of `window.scrollTo`: only the requested offset is recorded.
- Timer delays (1.5 s, 2 s) are "timer fired" events, not time. Every interleaving of events is allowed.
- `contactForm.reset()` restores the fields' markup defaults. These are taken to be empty.
- The intersection threshold (0.15) is applied by the browser. `isIntersecting` is an input.
- Tabs.FindPanel: searches only the tab panels. `getElementById` would also find a non-panel element with that id.
- Gauge.Percent: uses exact real arithmetic in place of IEEE doubles, so rounding and signed zero are not modelled.
- Navigation.OnScroll: takes the offset as an exact real and does not model floating point.
- ContactForm.Addend: uses exact reals, not the double product `Math.random() * 10`. The range [1, 10] holds either way.
- NumberParsing.ParseInt: results are exact integers, and the same holds for `ParseIntDecimal` and `ParseIntHexadecimal`. `parseInt` rounds results beyond 2^53 to a double, and neither the rounding nor the -0 result is modelled.
- NumberParsing.ParseIntRoundTrip: works on exact integers, while `parseInt` rounds results beyond 2^53 to a double. Rounding never makes a result equal a sum in [2, 20], so acceptance is unaffected.
- JavaScript strings are UTF-16 code units, while Dafny `char` is a Unicode scalar value. Both filters and all white-space characters lie in the Basic Multilingual Plane, so the two agree.

=== FILE: consent.dfy ===
/**
 * The cookie banner: shown 2 s after load unless consent is already
 * stored; the accept button stores consent and hides the banner.
 */
module Consent {
  import opened Wrappers

  /** The one key the page writes to `localStorage`. */
  const StorageKey: string := "astro_cookie_accepted"

  /** The value stored on accept. */
  const AcceptedValue: string := "true"

  /**
   * - `present`: both `#cookie-popup` and `#cookie-accept` exist; otherwise
   *   the banner logic is not installed.
   * - `storage`: the contents of `localStorage`.
   * - `visible`: the `cookie-popup--active` class.
   * - `showPending`: the 2 s display timer has been scheduled and not yet fired.
   */
  datatype Banner = Banner(present: bool, storage: map<string, string>, visible: bool, showPending: bool)

  /** `getItem`: `None` is `null`. */
  function Stored(storage: map<string, string>): Option<string> {
    if StorageKey in storage then Some(storage[StorageKey]) else None
  }

  /** `!localStorage.getItem(key)`: both `null` and the empty string are falsy. */
  predicate ConsentMissing(storage: map<string, string>)
    ensures ConsentMissing(storage) <==> StorageKey !in storage || storage[StorageKey] == ""
    ensures Stored(storage) == Some(AcceptedValue) ==> !ConsentMissing(storage)
  {
    Stored(storage) == None || Stored(storage) == Some("")
  }

  /** Page load: the display timer is scheduled only when consent is missing. */
  function Startup(present: bool, storage: map<string, string>): (b: Banner)
    ensures !b.visible && b.storage == storage && b.present == present
    ensures b.showPending <==> present && (StorageKey !in storage || storage[StorageKey] == "")
  {
    Banner(present, storage, false, present && ConsentMissing(storage))
  }

  /** The 2 s timer fires and shows the banner. */
  function ShowTimerFired(b: Banner): (b': Banner)
    requires b.showPending
    ensures b'.visible && !b'.showPending
    ensures b'.storage == b.storage && b'.present == b.present
  {
    b.(visible := true, showPending := false)
  }

  /** Click on the accept button, whose listener exists only when the banner is present. */
  function Accept(b: Banner): (b': Banner)
    ensures b.present ==> !b'.visible && StorageKey in b'.storage && b'.storage[StorageKey] == AcceptedValue
    ensures b.present ==> forall k :: k != StorageKey ==> (k in b'.storage <==> k in b.storage)
    ensures b.present ==> forall k :: k in b.storage && k != StorageKey ==> b'.storage[k] == b.storage[k]
    ensures b'.showPending == b.showPending && b'.present == b.present
    ensures !b.present ==> b' == b
  {
    if b.present then b.(storage := b.storage[StorageKey := AcceptedValue], visible := false) else b
  }

  /** Accepting twice is accepting once. */
  lemma AcceptIdempotent(b: Banner)
    ensures Accept(Accept(b)) == Accept(b)
  {
  }

  /** Events that reach the banner after load. */
  datatype BannerEvent = TimerFires | AcceptClick

  /** One banner event; a timer event with no timer pending does nothing. */
  function Dispatch(b: Banner, e: BannerEvent): Banner {
    match e
    case TimerFires => if b.showPending then ShowTimerFired(b) else b
    case AcceptClick => Accept(b)
  }

  /** Replays banner events in order. */
  function Replay(b: Banner, events: seq<BannerEvent>): Banner
    decreases |events|
  {
    if |events| == 0 then b else Replay(Dispatch(b, events[0]), events[1..])
  }

  /**
   * Once any non-empty value is stored under the key (not only `"true"`), a
   * reload never shows the banner, whatever happens afterwards, and the
   * stored flag is never lost; a stored `"true"` stays `"true"`.
   */
  lemma {:induction false} NeverShownAfterConsent(b: Banner, events: seq<BannerEvent>)
    requires !b.visible && !b.showPending
    requires b.present ==> !ConsentMissing(b.storage)
    ensures !Replay(b, events).visible
    ensures b.present ==> !ConsentMissing(Replay(b, events).storage)
    ensures b.present && Stored(b.storage) == Some(AcceptedValue) ==>
              Stored(Replay(b, events).storage) == Some(AcceptedValue)
    decreases |events|
  {
    if |events| > 0 {
      NeverShownAfterConsent(Dispatch(b, events[0]), events[1..]);
    }
  }

  /** A reload after accepting: the banner stays hidden for good. */
  lemma ReloadAfterAccept(b: Banner, events: seq<BannerEvent>)
    requires b.present
    ensures var reloaded := Startup(true, Accept(b).storage);
            !reloaded.showPending && !Replay(reloaded, events).visible
  {
    NeverShownAfterConsent(Startup(true, Accept(b).storage), events);
  }

  /** Without stored consent the banner appears once its timer fires. */
  lemma ShownWhenConsentMissing(storage: map<string, string>)
    requires ConsentMissing(storage)
    ensures Replay(Startup(true, storage), [TimerFires]).visible
  {
  }

  /**
   * The display timer is not cancelled by accepting: consent given before
   * it fires leaves the timer to show the banner anyway.
   */
  lemma AcceptBeforeTimerStillShows(storage: map<string, string>)
    requires ConsentMissing(storage)
    ensures var b := Replay(Startup(true, storage), [AcceptClick, TimerFires]);
            b.visible && Stored(b.storage) == Some(AcceptedValue)
  {
    var b0 := Startup(true, storage);
    var b1 := Accept(b0);
    assert Replay(b0, [AcceptClick, TimerFires]) == Replay(b1, [TimerFires]);
  }
}

=== FILE: contact_form.dfy ===
/**
 * The contact form: the arithmetic challenge, the phone field's input
 * filter, the intercepted submit with its simulated 1.5 s request, and the
 * global `resetForm`.
 */
module ContactForm {
  import opened Wrappers
  import Phone
  import NumberParsing

  /** Number of distinct addends: `Math.floor(Math.random() * 10) + 1`. */
  const AddendRange: int := 10

  /** One addend drawn from `r`, a value of `Math.random()`, which lies in [0, 1). */
  function Addend(r: real): (k: int)
    requires 0.0 <= r < 1.0
    ensures 1 <= k <= AddendRange
    ensures (k - 1) as real <= r * AddendRange as real < k as real
  {
    (r * AddendRange as real).Floor + 1
  }

  /** Every addend in [1, 10] is produced by some draw: the draws cover the whole range. */
  lemma AddendCoversRange(k: int)
    requires 1 <= k <= AddendRange
    ensures var r := (k - 1) as real / AddendRange as real; 0.0 <= r < 1.0 && Addend(r) == k
  {
  }

  /** The two addends shown in `#captcha-question` as "a + b". */
  datatype Question = Question(a: int, b: int)

  /** Label of the submit button: its original markup, or the "sending" text set on submit. */
  datatype Label = Original | Sending

  /**
   * Page state owned by the form controller.
   * - `hasQuestion`: whether `#captcha-question` exists; without it
   *   `generateCaptcha` returns at once and `captchaResult` stays undefined.
   * - `question`, `expected`: the displayed challenge and `captchaResult`
   *   (`None` while undefined).
   * - `answer`, `phone`: the values of the answer and phone fields.
   * - `formShown`, `successShown`: the form and the success message are displayed.
   * - `loading`, `buttonLabel`: the `btn--loading` class and the label of the submit button.
   * - `pendingTimers`: simulated requests whose 1.5 s timer has not fired yet.
   */
  datatype Form = Form(
    hasQuestion: bool,
    question: Option<Question>,
    expected: Option<int>,
    answer: string,
    phone: string,
    formShown: bool,
    successShown: bool,
    loading: bool,
    buttonLabel: Label,
    pendingTimers: nat)

  /** The stored sum matches the displayed challenge, whose addends are in range. */
  predicate ChallengeConsistent(f: Form) {
    && (f.question.Some? ==>
          && 1 <= f.question.value.a <= AddendRange
          && 1 <= f.question.value.b <= AddendRange
          && f.expected == Some(f.question.value.a + f.question.value.b))
    && (f.question.None? ==> f.expected.None?)
    && (!f.hasQuestion ==> f.question.None?)
  }

  /** What the controller keeps true between events. */
  predicate Valid(f: Form) {
    && ChallengeConsistent(f)
    && Phone.IsClean(f.phone)
    && (f.loading ==> f.pendingTimers > 0)
  }

  /** `generateCaptcha` with the two draws of `Math.random()`. */
  function Generate(f: Form, r1: real, r2: real): (g: Form)
    requires 0.0 <= r1 < 1.0 && 0.0 <= r2 < 1.0
    ensures !f.hasQuestion ==> g == f
    ensures f.hasQuestion ==>
              && g.question == Some(Question(Addend(r1), Addend(r2)))
              && g.expected.Some? && 2 <= g.expected.value <= 2 * AddendRange
              && g == f.(question := g.question, expected := g.expected)
    ensures f.hasQuestion || ChallengeConsistent(f) ==> ChallengeConsistent(g)
  {
    if !f.hasQuestion then f
    else
      var a := Addend(r1);
      var b := Addend(r2);
      f.(question := Some(Question(a, b)), expected := Some(a + b))
  }

  /** The form as the page loads it: `captchaResult` undefined, then `generateCaptcha()`. */
  function Init(hasQuestion: bool, r1: real, r2: real): (f: Form)
    requires 0.0 <= r1 < 1.0 && 0.0 <= r2 < 1.0
    ensures Valid(f)
    ensures f.formShown && !f.successShown && !f.loading && f.pendingTimers == 0
    ensures f.expected.Some? <==> hasQuestion
  {
    Generate(Form(hasQuestion, None, None, "", "", true, false, false, Original, 0), r1, r2)
  }

  /** Input handler of the phone field: the new value is replaced by its sanitised form. */
  function PhoneInput(f: Form, value: string): (g: Form)
    ensures Phone.IsClean(g.phone)
    ensures Phone.IsSubsequence(g.phone, value)
    ensures g == f.(phone := g.phone)
  {
    Phone.SanitizeIsSubsequence(value);
    f.(phone := Phone.Sanitize(value))
  }

  /** The user edits the challenge answer. */
  function AnswerInput(f: Form, value: string): (g: Form)
    ensures g.answer == value && g == f.(answer := value)
  {
    f.(answer := value)
  }

  /**
   * `parseInt(answer) !== captchaResult` is false: the answer's leading
   * integer is a number equal to the stored sum. NaN equals nothing, and
   * no number equals an undefined `captchaResult`.
   */
  predicate Accepts(f: Form)
    ensures Accepts(f) ==> !NumberParsing.NoDecimalDigit(f.answer)
    ensures ChallengeConsistent(f) ==>
              (Accepts(f) <==>
                 (f.question.Some? &&
                  NumberParsing.ParseInt(f.answer) == Some(f.question.value.a + f.question.value.b)))
  {
    f.expected.Some? && NumberParsing.ParseInt(f.answer) == Some(f.expected.value)
  }

  /** The reject branch of the submit handler: a new challenge and an emptied answer field. */
  function Reject(f: Form, r1: real, r2: real): (g: Form)
    requires 0.0 <= r1 < 1.0 && 0.0 <= r2 < 1.0
    ensures g.answer == ""
    ensures g.loading == f.loading && g.buttonLabel == f.buttonLabel
    ensures g.formShown == f.formShown && g.successShown == f.successShown
    ensures g.pendingTimers == f.pendingTimers && g.phone == f.phone
    ensures f.hasQuestion ==> g.question == Some(Question(Addend(r1), Addend(r2)))
    ensures !f.hasQuestion ==> g.question == f.question && g.expected == f.expected
    ensures g == f.(answer := "", question := g.question, expected := g.expected)
    ensures Valid(f) ==> Valid(g)
  {
    Generate(f, r1, r2).(answer := "")
  }

  /** The accept branch of the submit handler: loading, the "sending" label and one more pending timer. */
  function Start(f: Form): (g: Form)
    ensures g.loading && g.buttonLabel == Sending && g.pendingTimers == f.pendingTimers + 1
    ensures g == f.(loading := true, buttonLabel := Sending, pendingTimers := g.pendingTimers)
    ensures Valid(f) ==> Valid(g)
  {
    f.(loading := true, buttonLabel := Sending, pendingTimers := f.pendingTimers + 1)
  }

  /**
   * Submit handler. A wrong answer regenerates the challenge and clears the
   * answer field; a right one enters the loading state and starts the timer.
   */
  function Submit(f: Form, r1: real, r2: real): (g: Form)
    requires 0.0 <= r1 < 1.0 && 0.0 <= r2 < 1.0
    ensures Accepts(f) ==> g == Start(f)
    ensures !Accepts(f) ==> g == Reject(f, r1, r2)
    ensures Valid(f) ==> Valid(g)
  {
    if Accepts(f) then Start(f) else Reject(f, r1, r2)
  }

  /** The simulated request's timer fires: the form is hidden and the success message shown. */
  function SubmitTimerFired(f: Form): (g: Form)
    requires f.pendingTimers > 0
    ensures !g.formShown && g.successShown && !g.loading
    ensures g.pendingTimers == f.pendingTimers - 1
    ensures g == f.(formShown := false, successShown := true, loading := false, pendingTimers := g.pendingTimers)
    ensures Valid(f) ==> Valid(g)
  {
    f.(formShown := false, successShown := true, loading := false, pendingTimers := f.pendingTimers - 1)
  }

  /**
   * `window.resetForm`: the fields return to their default (empty) values,
   * the form is shown, the success message hidden and the challenge
   * regenerated. The button's class and label and any pending timer are
   * left as they are.
   */
  function ResetForm(f: Form, r1: real, r2: real): (g: Form)
    requires 0.0 <= r1 < 1.0 && 0.0 <= r2 < 1.0
    ensures g.formShown && !g.successShown && g.answer == "" && g.phone == ""
    ensures g.loading == f.loading && g.buttonLabel == f.buttonLabel && g.pendingTimers == f.pendingTimers
    ensures f.hasQuestion ==> g.question == Some(Question(Addend(r1), Addend(r2)))
    ensures !f.hasQuestion ==> g.question == f.question && g.expected == f.expected
    ensures g == f.(answer := "", phone := "", formShown := true, successShown := false,
                    question := g.question, expected := g.expected)
    ensures Valid(f) ==> Valid(g)
  {
    Generate(f.(answer := "", phone := "", formShown := true, successShown := false), r1, r2)
  }

  /**
   * Submission starts the request exactly when the parsed answer is the sum
   * of the two displayed addends.
   */
  lemma SubmitStartsIffAnswerIsSum(f: Form, r1: real, r2: real)
    requires 0.0 <= r1 < 1.0 && 0.0 <= r2 < 1.0
    requires ChallengeConsistent(f)
    ensures var g := Submit(f, r1, r2);
            (g.pendingTimers > f.pendingTimers) <==>
              f.question.Some? && NumberParsing.ParseInt(f.answer) == Some(f.question.value.a + f.question.value.b)
  {
  }

  /** An answer that parses to NaN is always rejected, and leaves the lifecycle where it was. */
  lemma NaNIsRejected(f: Form, r1: real, r2: real)
    requires 0.0 <= r1 < 1.0 && 0.0 <= r2 < 1.0
    requires NumberParsing.ParseInt(f.answer).None?
    ensures var g := Submit(f, r1, r2);
            && g.answer == ""
            && g.pendingTimers == f.pendingTimers && g.loading == f.loading
            && g.successShown == f.successShown && g.formShown == f.formShown
  {
  }

  /** Without `#captcha-question` the sum stays undefined and every submission is rejected. */
  lemma NoQuestionRejectsAll(f: Form, r1: real, r2: real)
    requires 0.0 <= r1 < 1.0 && 0.0 <= r2 < 1.0
    requires !f.hasQuestion && ChallengeConsistent(f)
    ensures Submit(f, r1, r2).pendingTimers == f.pendingTimers
    ensures Submit(f, r1, r2).expected.None?
  {
  }

  /** The lifecycle phase shown to the user. */
  datatype Phase = Idle | Loading | Success

  function PhaseOf(f: Form): Phase {
    if f.loading then Loading
    else if f.successShown && !f.formShown then Success
    else Idle
  }

  /**
   * The whole lifecycle: from a fresh form with the right answer typed,
   * Idle, submit to Loading, the timer to Success, reset back to Idle with a
   * new challenge and no timer left. The button keeps its "sending" label.
   */
  lemma Lifecycle(f: Form, r1: real, r2: real, r3: real, r4: real)
    requires 0.0 <= r1 < 1.0 && 0.0 <= r2 < 1.0 && 0.0 <= r3 < 1.0 && 0.0 <= r4 < 1.0
    requires Valid(f) && f.formShown && !f.successShown && !f.loading && f.pendingTimers == 0
    requires f.question.Some?
    requires f.answer == NumberParsing.IntToDecimal(f.question.value.a + f.question.value.b)
    ensures PhaseOf(f) == Idle
    ensures var s1 := Submit(f, r1, r2);
            && PhaseOf(s1) == Loading && s1.pendingTimers == 1
            && var s2 := SubmitTimerFired(s1);
            && PhaseOf(s2) == Success && s2.pendingTimers == 0
            && var s3 := ResetForm(s2, r3, r4);
            && PhaseOf(s3) == Idle && s3.pendingTimers == 0 && s3.formShown
            && s3.question == Some(Question(Addend(r3), Addend(r4)))
            && s3.buttonLabel == Sending
  {
    NumberParsing.ParseIntRoundTrip(f.question.value.a + f.question.value.b);
  }

  /**
   * The simulated request is not cancellable: a reset before its timer fires
   * is undone when it fires, hiding the fresh form and showing success again.
   */
  lemma StaleTimerHidesResetForm(f: Form, r1: real, r2: real, r3: real, r4: real)
    requires 0.0 <= r1 < 1.0 && 0.0 <= r2 < 1.0 && 0.0 <= r3 < 1.0 && 0.0 <= r4 < 1.0
    requires Accepts(f)
    ensures var s := ResetForm(Submit(f, r1, r2), r3, r4);
            && s.formShown && !s.successShown && s.pendingTimers > 0
            && var t := SubmitTimerFired(s);
            && !t.formShown && t.successShown
  {
  }
}

=== FILE: gauge.dfy ===
/**
 * The scroll progress line of the stream section:
 * `min(max((innerHeight - top) / (height + innerHeight) * 100, 0), 100)`,
 * evaluated on JavaScript numbers, so that a zero denominator yields an
 * infinity or NaN rather than an error.
 */
module Gauge {

  /** A JavaScript number, with exact reals standing in for the finite doubles. */
  datatype JsNumber = Finite(v: real) | PosInfinity | NegInfinity | NaN

  /** `a / b` on JavaScript numbers with finite operands. */
  function Divide(a: real, b: real): JsNumber {
    if b != 0.0 then Finite(a / b)
    else if a > 0.0 then PosInfinity
    else if a < 0.0 then NegInfinity
    else NaN
  }

  /** `x * k` for a positive finite `k`. */
  function Scale(x: JsNumber, k: real): JsNumber
    requires k > 0.0
  {
    match x
    case Finite(v) => Finite(v * k)
    case _ => x
  }

  /** `Math.max(x, c)` for a finite `c`: NaN wins, otherwise the larger. */
  function MaxWith(x: JsNumber, c: real): JsNumber {
    match x
    case NaN => NaN
    case PosInfinity => PosInfinity
    case NegInfinity => Finite(c)
    case Finite(v) => if v >= c then x else Finite(c)
  }

  /** `Math.min(x, c)` for a finite `c`: NaN wins, otherwise the smaller. */
  function MinWith(x: JsNumber, c: real): JsNumber {
    match x
    case NaN => NaN
    case PosInfinity => Finite(c)
    case NegInfinity => NegInfinity
    case Finite(v) => if v <= c then x else Finite(c)
  }

  /** The clamp of a real into [0, 100]. */
  function Clamp100(v: real): real {
    if v < 0.0 then 0.0 else if v > 100.0 then 100.0 else v
  }

  /**
   * The fill percentage for viewport height `innerHeight`, the section's
   * bounding top `top` and its rendered height `height`. It is a percentage
   * in [0, 100], or NaN exactly when numerator and denominator are both zero;
   * with a positive denominator it is the clamped ratio.
   */
  function Percent(innerHeight: real, top: real, height: real): (r: JsNumber)
    ensures r.NaN? || (r.Finite? && 0.0 <= r.v <= 100.0)
    ensures r.NaN? <==> innerHeight - top == 0.0 && height + innerHeight == 0.0
    ensures height + innerHeight > 0.0 ==>
              r == Finite(Clamp100((innerHeight - top) / (height + innerHeight) * 100.0))
  {
    var raw := Scale(Divide(innerHeight - top, height + innerHeight), 100.0);
    MinWith(MaxWith(raw, 0.0), 100.0)
  }

  /**
   * With a positive denominator the gauge is empty until the section's top
   * enters the viewport from below, and full once the section has scrolled
   * past the top by its own height.
   */
  lemma PercentEnds(innerHeight: real, top: real, height: real)
    requires height + innerHeight > 0.0
    ensures top >= innerHeight ==> Percent(innerHeight, top, height) == Finite(0.0)
    ensures top <= -height ==> Percent(innerHeight, top, height) == Finite(100.0)
  {
    var d := height + innerHeight;
    if top <= -height {
      assert innerHeight - top >= d;
      assert (innerHeight - top) / d >= 1.0;
    }
  }

  /** Scrolling down (the section's top moving up) never empties the gauge. */
  lemma PercentMonotone(innerHeight: real, top1: real, top2: real, height: real)
    requires height + innerHeight > 0.0
    requires top2 <= top1
    ensures Percent(innerHeight, top1, height).v <= Percent(innerHeight, top2, height).v
  {
    var d := height + innerHeight;
    assert (innerHeight - top1) / d <= (innerHeight - top2) / d;
  }
}

=== FILE: navigation.dfy ===
/**
 * Header and mobile-menu behaviour: the scroll-dependent header style, the
 * burger toggle and the in-page anchor links that close the menu.
 */
module Navigation {
  import opened Wrappers

  /** Vertical offset, in CSS pixels, beyond which the header is "scrolled". */
  const ScrollThreshold: real := 50.0

  /** Height of the sticky header subtracted from an anchor target's offset. */
  const HeaderOffset: int := 80

  /** The header's `header--scrolled` class. */
  datatype Header = Header(scrolled: bool)

  /**
   * The three classes the burger toggles: `active` on the burger button,
   * `active` on the navigation menu and `no-scroll` on the body.
   * `hasBurger` records whether the page has a `#burger-menu` element.
   */
  datatype Menu = Menu(hasBurger: bool, burgerActive: bool, menuActive: bool, noScroll: bool)

  /** The three menu flags agree with each other. */
  predicate Synced(m: Menu) {
    m.burgerActive == m.menuActive && m.menuActive == m.noScroll
  }

  /** All three menu flags are cleared. */
  predicate Closed(m: Menu) {
    !m.burgerActive && !m.menuActive && !m.noScroll
  }

  /** Scroll handler: the class is recomputed from the current offset alone. */
  function OnScroll(h: Header, scrollY: real): (h': Header)
    ensures h'.scrolled <==> scrollY > ScrollThreshold
  {
    Header(scrollY > ScrollThreshold)
  }

  /** Burger click handler; the listener is only attached when the burger exists. */
  function ToggleBurger(m: Menu): (m': Menu)
    ensures m'.hasBurger == m.hasBurger
    ensures m.hasBurger ==> m'.burgerActive != m.burgerActive && m'.menuActive != m.menuActive && m'.noScroll != m.noScroll
    ensures !m.hasBurger ==> m' == m
  {
    if m.hasBurger then
      m.(burgerActive := !m.burgerActive, menuActive := !m.menuActive, noScroll := !m.noScroll)
    else
      m
  }

  /** What an anchor click leaves behind: the menu and the requested scroll offset, if any. */
  datatype AnchorOutcome = AnchorOutcome(menu: Menu, scrollTo: Option<int>)

  /**
   * Click handler of an `a[href^="#"]` link. `targets` maps a selector to the
   * `offsetTop` of the element `document.querySelector` finds for it; a
   * selector that matches nothing (or is not a valid selector, which makes
   * `querySelector` throw) is absent from it. Without a burger element the
   * handler throws on `burger.classList` before it can scroll.
   */
  function AnchorClick(m: Menu, href: string, targets: map<string, int>): (r: AnchorOutcome)
    requires |href| > 0 && href[0] == '#'
    ensures href == "#" ==> r == AnchorOutcome(m, None)
    ensures href !in targets ==> r == AnchorOutcome(m, None)
    ensures !m.hasBurger ==> r == AnchorOutcome(m, None)
    ensures href != "#" && href in targets && m.hasBurger ==>
              && r.scrollTo == Some(targets[href] - HeaderOffset)
              && Closed(r.menu) && r.menu.hasBurger
  {
    if href == "#" then AnchorOutcome(m, None)
    else if href !in targets then AnchorOutcome(m, None)
    else if !m.hasBurger then AnchorOutcome(m, None)
    else AnchorOutcome(m.(burgerActive := false, menuActive := false, noScroll := false),
                       Some(targets[href] - HeaderOffset))
  }

  /** The header state after a scroll depends on the latest offset only. */
  lemma ScrollForgetsHistory(h1: Header, h2: Header, y0: real, y: real)
    ensures OnScroll(h1, y) == OnScroll(h2, y)
    ensures OnScroll(OnScroll(h1, y0), y) == OnScroll(h1, y)
  {
  }

  /** Two burger clicks restore the original menu. */
  lemma ToggleTwiceIsIdentity(m: Menu)
    ensures ToggleBurger(ToggleBurger(m)) == m
  {
  }

  /** The burger keeps the three flags in step, opening a closed menu and closing an open one. */
  lemma ToggleKeepsSynced(m: Menu)
    requires Synced(m)
    ensures Synced(ToggleBurger(m))
    ensures m.hasBurger ==> (Closed(ToggleBurger(m)) <==> !Closed(m))
  {
  }

  /**
   * An anchor click changes the menu exactly when it scrolls, and then leaves
   * it closed and synced; clicking the same link again changes nothing more.
   */
  lemma AnchorClosesMenuIffScrolling(m: Menu, href: string, targets: map<string, int>)
    requires |href| > 0 && href[0] == '#'
    ensures var r := AnchorClick(m, href, targets);
            && (r.scrollTo.None? ==> r.menu == m)
            && (r.scrollTo.Some? ==> Closed(r.menu) && Synced(r.menu))
            && (r.scrollTo.Some? <==> href != "#" && href in targets && m.hasBurger)
            && AnchorClick(r.menu, href, targets).menu == r.menu
  {
  }
}

=== FILE: page.dfy ===
/**
 * The whole page as one event-driven state machine. Events are dispatched
 * one at a time and each handler runs to completion, so a run of the page
 * is a fold of `Step` over the event sequence.
 */
module Page {
  import opened Wrappers
  import Navigation
  import Reveal
  import Tabs
  import Gauge
  import ContactForm
  import Consent

  /** Page state. `gauge` is the last fill written (`None` before any), `hasGauge` whether the section exists. */
  datatype Page = Page(
    header: Navigation.Header,
    menu: Navigation.Menu,
    scrollRequest: Option<int>,
    revealed: set<Reveal.ElementId>,
    tabs: Tabs.TabGroup,
    hasGauge: bool,
    gauge: Option<Gauge.JsNumber>,
    form: ContactForm.Form,
    banner: Consent.Banner)

  /** The browser and user events the script listens to; draws are values of `Math.random()`. */
  datatype Event =
    | Scroll(scrollY: real, innerHeight: real, sectionTop: real, sectionHeight: real)
    | BurgerClick
    | AnchorClick(href: string, targets: map<string, int>)
    | Intersect(entries: seq<Reveal.Entry>)
    | TabClick(index: nat)
    | PhoneInput(value: string)
    | AnswerInput(value: string)
    | Submit(draw1: real, draw2: real)
    | SubmitTimerFired
    | ResetForm(draw1: real, draw2: real)
    | BannerTimerFired
    | AcceptCookies

  /** `Math.random()` returns values in [0, 1). */
  predicate IsDraw(r: real) {
    0.0 <= r < 1.0
  }

  predicate ValidEvent(e: Event) {
    match e
    case Submit(r1, r2) => IsDraw(r1) && IsDraw(r2)
    case ResetForm(r1, r2) => IsDraw(r1) && IsDraw(r2)
    case _ => true
  }

  /**
   * Dispatches one event to its handler. An anchor without a leading `#`, a
   * button index outside the group and a timer that is not pending have no
   * listener behind them and change nothing. Each handler touches only its
   * own part of the page, and revealed elements are never hidden again.
   */
  function Step(p: Page, e: Event): (r: Page)
    requires ValidEvent(e)
    ensures !e.Scroll? ==> r.header == p.header && r.gauge == p.gauge
    ensures !e.BurgerClick? && !e.AnchorClick? ==> r.menu == p.menu
    ensures !e.AnchorClick? ==> r.scrollRequest == p.scrollRequest
    ensures p.revealed <= r.revealed && (!e.Intersect? ==> r.revealed == p.revealed)
    ensures !e.TabClick? ==> r.tabs == p.tabs
    ensures (!e.PhoneInput? && !e.AnswerInput? && !e.Submit? && !e.SubmitTimerFired? && !e.ResetForm?)
              ==> r.form == p.form
    ensures !e.BannerTimerFired? && !e.AcceptCookies? ==> r.banner == p.banner
    ensures r.hasGauge == p.hasGauge
  {
    match e
    case Scroll(y, ih, top, height) =>
      p.(header := Navigation.OnScroll(p.header, y),
         gauge := if p.hasGauge then Some(Gauge.Percent(ih, top, height)) else p.gauge)
    case BurgerClick => p.(menu := Navigation.ToggleBurger(p.menu))
    case AnchorClick(href, targets) =>
      if |href| > 0 && href[0] == '#' then
        var r := Navigation.AnchorClick(p.menu, href, targets);
        p.(menu := r.menu, scrollRequest := if r.scrollTo.Some? then r.scrollTo else p.scrollRequest)
      else p
    case Intersect(entries) => p.(revealed := Reveal.OnEntries(p.revealed, entries))
    case TabClick(i) => if i < |p.tabs.buttons| then p.(tabs := Tabs.Click(p.tabs, i)) else p
    case PhoneInput(v) => p.(form := ContactForm.PhoneInput(p.form, v))
    case AnswerInput(v) => p.(form := ContactForm.AnswerInput(p.form, v))
    case Submit(r1, r2) => p.(form := ContactForm.Submit(p.form, r1, r2))
    case SubmitTimerFired =>
      if p.form.pendingTimers > 0 then p.(form := ContactForm.SubmitTimerFired(p.form)) else p
    case ResetForm(r1, r2) => p.(form := ContactForm.ResetForm(p.form, r1, r2))
    case BannerTimerFired => p.(banner := Consent.Dispatch(p.banner, Consent.TimerFires))
    case AcceptCookies => p.(banner := Consent.Dispatch(p.banner, Consent.AcceptClick))
  }

  /** Runs a sequence of events. */
  function Run(p: Page, events: seq<Event>): Page
    requires forall i :: 0 <= i < |events| ==> ValidEvent(events[i])
    decreases |events|
  {
    if |events| == 0 then p else Run(Step(p, events[0]), events[1..])
  }

  /** What holds of the page between events. */
  predicate Inv(p: Page) {
    && Navigation.Synced(p.menu)
    && |Tabs.ActiveButtons(p.tabs.buttons)| <= 1
    && |Tabs.ActivePanels(p.tabs.panels)| <= 1
    && (p.gauge.Some? ==> p.gauge.value.NaN? || (p.gauge.value.Finite? && 0.0 <= p.gauge.value.v <= 100.0))
    && ContactForm.Valid(p.form)
  }

  /**
   * The page right after `DOMContentLoaded`: the header is not scrolled,
   * the menu is closed, nothing is revealed and no gauge fill is written
   * yet; the tabs are as the markup sets them, `generateCaptcha` has run
   * with the draws `r1`, `r2`, and the banner's timer is scheduled or not.
   * The invariant holds at load when the markup marks at most one tab
   * button and at most one panel active; the script itself accepts any
   * markup.
   */
  function Load(hasBurger: bool, buttons: seq<Tabs.Button>, panels: seq<Tabs.Panel>, hasGauge: bool,
                hasQuestion: bool, r1: real, r2: real,
                bannerPresent: bool, storage: map<string, string>): (p: Page)
    requires IsDraw(r1) && IsDraw(r2)
    ensures |Tabs.ActiveButtons(buttons)| <= 1 && |Tabs.ActivePanels(panels)| <= 1 ==> Inv(p)
    ensures !p.header.scrolled && Navigation.Closed(p.menu) && p.menu.hasBurger == hasBurger
    ensures p.revealed == {} && p.gauge == None && p.scrollRequest == None
    ensures p.tabs == Tabs.TabGroup(buttons, panels) && p.hasGauge == hasGauge
    ensures p.form.formShown && !p.form.loading && p.form.pendingTimers == 0
    ensures p.form.expected.Some? <==> hasQuestion
    ensures !p.banner.visible && p.banner.storage == storage
    ensures p.banner.showPending <==> bannerPresent && Consent.ConsentMissing(storage)
  {
    Page(Navigation.Header(false), Navigation.Menu(hasBurger, false, false, false), None, {},
         Tabs.TabGroup(buttons, panels), hasGauge, None,
         ContactForm.Init(hasQuestion, r1, r2), Consent.Startup(bannerPresent, storage))
  }

  /** Every handler keeps the invariant. */
  lemma StepKeepsInv(p: Page, e: Event)
    requires ValidEvent(e) && Inv(p)
    ensures Inv(Step(p, e))
  {
    match e
    case BurgerClick => Navigation.ToggleKeepsSynced(p.menu);
    case AnchorClick(href, targets) =>
      if |href| > 0 && href[0] == '#' {
        Navigation.AnchorClosesMenuIffScrolling(p.menu, href, targets);
      }
    case _ =>
  }

  /**
   * Over any run: the menu flags stay in step, at most one tab and one panel
   * are active, the gauge is a percentage or NaN, the phone field holds only
   * digits and `+`, the challenge matches its sum, and a loading button
   * always has a timer pending to clear it.
   */
  lemma {:induction false} RunKeepsInv(p: Page, events: seq<Event>)
    requires forall i :: 0 <= i < |events| ==> ValidEvent(events[i])
    requires Inv(p)
    ensures Inv(Run(p, events))
    decreases |events|
  {
    if |events| > 0 {
      StepKeepsInv(p, events[0]);
      RunKeepsInv(Step(p, events[0]), events[1..]);
    }
  }

  /** From page load on, the invariant holds after every sequence of events. */
  lemma LoadedRunKeepsInv(hasBurger: bool, buttons: seq<Tabs.Button>, panels: seq<Tabs.Panel>, hasGauge: bool,
                          hasQuestion: bool, r1: real, r2: real,
                          bannerPresent: bool, storage: map<string, string>, events: seq<Event>)
    requires IsDraw(r1) && IsDraw(r2)
    requires |Tabs.ActiveButtons(buttons)| <= 1 && |Tabs.ActivePanels(panels)| <= 1
    requires forall i :: 0 <= i < |events| ==> ValidEvent(events[i])
    ensures Inv(Run(Load(hasBurger, buttons, panels, hasGauge, hasQuestion, r1, r2, bannerPresent, storage), events))
  {
    RunKeepsInv(Load(hasBurger, buttons, panels, hasGauge, hasQuestion, r1, r2, bannerPresent, storage), events);
  }

  /** Revealed elements stay revealed over any run. */
  lemma {:induction false} RunKeepsRevealed(p: Page, events: seq<Event>)
    requires forall i :: 0 <= i < |events| ==> ValidEvent(events[i])
    ensures p.revealed <= Run(p, events).revealed
    decreases |events|
  {
    if |events| > 0 {
      RunKeepsRevealed(Step(p, events[0]), events[1..]);
    }
  }

  /**
   * A stored flag, once any non-empty value, survives any run, and a
   * stored `"true"` stays `"true"`.
   */
  lemma {:induction false} RunKeepsConsent(p: Page, events: seq<Event>)
    requires forall i :: 0 <= i < |events| ==> ValidEvent(events[i])
    requires !Consent.ConsentMissing(p.banner.storage)
    ensures !Consent.ConsentMissing(Run(p, events).banner.storage)
    ensures Consent.Stored(p.banner.storage) == Some(Consent.AcceptedValue) ==>
              Consent.Stored(Run(p, events).banner.storage) == Some(Consent.AcceptedValue)
    decreases |events|
  {
    if |events| > 0 {
      RunKeepsConsent(Step(p, events[0]), events[1..]);
    }
  }

  /** The banner events among `events`, in order. */
  function BannerEvents(events: seq<Event>): seq<Consent.BannerEvent>
    decreases |events|
  {
    if |events| == 0 then []
    else
      var rest := BannerEvents(events[1..]);
      match events[0]
      case BannerTimerFired => [Consent.TimerFires] + rest
      case AcceptCookies => [Consent.AcceptClick] + rest
      case _ => rest
  }

  /**
   * Over a whole run the banner sees exactly its own events, in order: the
   * page's banner ends as the banner alone would after replaying them.
   */
  lemma {:induction false} RunBannerIsReplay(p: Page, events: seq<Event>)
    requires forall i :: 0 <= i < |events| ==> ValidEvent(events[i])
    ensures Run(p, events).banner == Consent.Replay(p.banner, BannerEvents(events))
    decreases |events|
  {
    if |events| > 0 {
      var q := Step(p, events[0]);
      RunBannerIsReplay(q, events[1..]);
      var rest := BannerEvents(events[1..]);
      match events[0]
      case BannerTimerFired =>
        assert ([Consent.TimerFires] + rest)[1..] == rest;
      case AcceptCookies =>
        assert ([Consent.AcceptClick] + rest)[1..] == rest;
      case _ =>
    }
  }

  /**
   * A page loaded with any non-empty value stored under the consent key
   * never shows the banner, whatever events follow.
   */
  lemma LoadedWithConsentNeverShowsBanner(hasBurger: bool, buttons: seq<Tabs.Button>, panels: seq<Tabs.Panel>,
                                          hasGauge: bool, hasQuestion: bool, r1: real, r2: real,
                                          bannerPresent: bool, storage: map<string, string>, events: seq<Event>)
    requires IsDraw(r1) && IsDraw(r2)
    requires !Consent.ConsentMissing(storage)
    requires forall i :: 0 <= i < |events| ==> ValidEvent(events[i])
    ensures !Run(Load(hasBurger, buttons, panels, hasGauge, hasQuestion, r1, r2, bannerPresent, storage), events).banner.visible
  {
    var p := Load(hasBurger, buttons, panels, hasGauge, hasQuestion, r1, r2, bannerPresent, storage);
    RunBannerIsReplay(p, events);
    Consent.NeverShownAfterConsent(p.banner, BannerEvents(events));
  }
}

=== FILE: parse_int.dfy ===
/**
 * `parseInt(string)` with the radix omitted, as section 19.2.5 of ECMA-262
 * defines it: leading white space is skipped, one sign is read, a `0x` or
 * `0X` prefix selects radix 16 (otherwise 10), and the longest prefix of
 * digits of that radix is converted; no digits at all gives NaN (`None`).
 */
module NumberParsing {
  import opened Wrappers

  /** StrWhiteSpaceChar: WhiteSpace (including every Zs space) or LineTerminator. */
  predicate IsStrWhiteSpace(c: char) {
    var n := c as int;
    n == 0x09 || n == 0x0A || n == 0x0B || n == 0x0C || n == 0x0D || n == 0x20
    || n == 0xA0 || n == 0x1680 || (0x2000 <= n <= 0x200A) || n == 0x2028 || n == 0x2029
    || n == 0x202F || n == 0x205F || n == 0x3000 || n == 0xFEFF
  }

  /** Drops the leading white space. */
  function TrimStart(s: string): (r: string)
    ensures |r| <= |s| && r == s[|s| - |r|..]
    ensures forall i :: 0 <= i < |s| - |r| ==> IsStrWhiteSpace(s[i])
    ensures |r| == 0 || !IsStrWhiteSpace(r[0])
    decreases |s|
  {
    if |s| > 0 && IsStrWhiteSpace(s[0]) then TrimStart(s[1..]) else s
  }

  /** The value of `c` as a digit of `radix` (10 or 16), if it is one. */
  function DigitValue(c: char, radix: nat): (r: Option<nat>)
    requires radix == 10 || radix == 16
    ensures r.Some? ==> r.value < radix
  {
    if '0' <= c <= '9' then Some(c as nat - '0' as nat)
    else if radix == 16 && 'a' <= c <= 'f' then Some(c as nat - 'a' as nat + 10)
    else if radix == 16 && 'A' <= c <= 'F' then Some(c as nat - 'A' as nat + 10)
    else None
  }

  /** Every character of `s` is a digit of `radix`. */
  predicate AllDigits(s: string, radix: nat)
    requires radix == 10 || radix == 16
  {
    forall i :: 0 <= i < |s| ==> DigitValue(s[i], radix).Some?
  }

  /** Length of the longest prefix of `s` made of digits of `radix`. */
  function DigitRun(s: string, radix: nat): (n: nat)
    requires radix == 10 || radix == 16
    ensures n <= |s|
    ensures AllDigits(s[..n], radix)
    ensures n == |s| || DigitValue(s[n], radix).None?
    decreases |s|
  {
    if |s| == 0 || DigitValue(s[0], radix).None? then 0
    else
      var m := DigitRun(s[1..], radix);
      assert s[..m + 1] == [s[0]] + s[1..][..m];
      m + 1
  }

  /** The number written by the digit string `ds` in `radix`, most significant digit first. */
  function ValueOf(ds: string, radix: nat): nat
    requires radix == 10 || radix == 16
    requires AllDigits(ds, radix)
    decreases |ds|
  {
    if |ds| == 0 then 0
    else ValueOf(ds[..|ds| - 1], radix) * radix + DigitValue(ds[|ds| - 1], radix).value
  }

  /** Digits of `radix` at the start of `w`, converted; `None` when there are none. */
  function ParseDigits(w: string, radix: nat): (r: Option<nat>)
    requires radix == 10 || radix == 16
    ensures r.None? <==> |w| == 0 || DigitValue(w[0], radix).None?
  {
    var n := DigitRun(w, radix);
    if n == 0 then None else Some(ValueOf(w[..n], radix))
  }

  /** `u` starts with the hexadecimal prefix `0x` or `0X`. */
  predicate HexPrefixed(u: string) {
    |u| >= 2 && u[0] == '0' && (u[1] == 'x' || u[1] == 'X')
  }

  /** The unsigned part: a `0x`/`0X` prefix selects radix 16, otherwise radix 10. */
  function ParseUnsigned(u: string): Option<nat>
  {
    if HexPrefixed(u) then ParseDigits(u[2..], 16)
    else ParseDigits(u, 10)
  }

  /** The text after white space: an optional `-` or `+`, then the unsigned part. */
  function ParseSigned(t: string): Option<int>
  {
    if |t| > 0 && t[0] == '-' then
      match ParseUnsigned(t[1..])
      case None => None
      case Some(v) => Some(-(v as int))
    else if |t| > 0 && t[0] == '+' then ParseUnsigned(t[1..])
    else ParseUnsigned(t)
  }

  /**
   * `parseInt(s)`: `None` is NaN. The JavaScript result -0 is represented by 0.
   * A string without a single decimal digit in it is always NaN.
   */
  function ParseInt(s: string): (r: Option<int>)
    ensures NoDecimalDigit(s) ==> r.None?
  {
    ParseSignedNeedsADigit(s);
    ParseSigned(TrimStart(s))
  }

  /** The decimal digit for `d`. */
  function DigitChar(d: nat): (c: char)
    requires d < 10
    ensures DigitValue(c, 10) == Some(d)
  {
    ['0', '1', '2', '3', '4', '5', '6', '7', '8', '9'][d]
  }

  /** Decimal notation of a natural number, without leading zeros. */
  function NatToDecimal(n: nat): (s: string)
    ensures |s| > 0 && AllDigits(s, 10)
    ensures n > 0 ==> s[0] != '0'
    decreases n
  {
    if n < 10 then [DigitChar(n)]
    else
      var p := NatToDecimal(n / 10);
      var s := p + [DigitChar(n % 10)];
      assert s[0] == p[0];
      s
  }

  /** Plain decimal notation of an integer: a `-` for negatives, no leading zeros. */
  function IntToDecimal(n: int): string {
    if n < 0 then "-" + NatToDecimal(-n) else NatToDecimal(n)
  }

  /** Reading back the decimal notation of a natural number gives the number. */
  lemma {:induction false} ValueOfNatToDecimal(n: nat)
    ensures ValueOf(NatToDecimal(n), 10) == n
    decreases n
  {
    var s := NatToDecimal(n);
    if n >= 10 {
      ValueOfNatToDecimal(n / 10);
      assert s[..|s| - 1] == NatToDecimal(n / 10);
    }
  }

  /** Trimming ignores a white-space prefix. */
  lemma {:induction false} TrimStartSkips(ws: string, s: string)
    requires forall i :: 0 <= i < |ws| ==> IsStrWhiteSpace(ws[i])
    ensures TrimStart(ws + s) == TrimStart(s)
    decreases |ws|
  {
    if |ws| > 0 {
      assert (ws + s)[0] == ws[0];
      assert (ws + s)[1..] == ws[1..] + s;
      TrimStartSkips(ws[1..], s);
    } else {
      assert ws + s == s;
    }
  }

  /** Skipping white space: a white-space prefix never changes the parse. */
  lemma ParseIntSkipsWhiteSpace(ws: string, s: string)
    requires forall i :: 0 <= i < |ws| ==> IsStrWhiteSpace(ws[i])
    ensures ParseInt(ws + s) == ParseInt(s)
  {
    TrimStartSkips(ws, s);
  }

  /** The digit run of a string that starts with all digits of `ds`. */
  lemma {:induction false} DigitRunOfPrefix(ds: string, rest: string, radix: nat)
    requires radix == 10 || radix == 16
    requires AllDigits(ds, radix)
    requires |rest| == 0 || DigitValue(rest[0], radix).None?
    ensures DigitRun(ds + rest, radix) == |ds|
    ensures (ds + rest)[..|ds|] == ds
    decreases |ds|
  {
    if |ds| == 0 {
      assert ds + rest == rest;
    } else {
      var s := ds + rest;
      assert s[0] == ds[0];
      assert s[1..] == ds[1..] + rest;
      assert AllDigits(ds[1..], radix) by {
        forall i | 0 <= i < |ds[1..]| ensures DigitValue(ds[1..][i], radix).Some? {
          assert ds[1..][i] == ds[i + 1];
        }
      }
      DigitRunOfPrefix(ds[1..], rest, radix);
    }
  }

  /**
   * Round trip with trailing text: the decimal notation of any integer,
   * followed by anything that does not continue the number, parses back to
   * that integer. The one exception is 0 followed by `x` or `X`, which
   * `parseInt` reads as a hexadecimal prefix.
   */
  lemma ParseIntDecimalPrefix(n: int, rest: string)
    requires |rest| == 0 || DigitValue(rest[0], 10).None?
    requires n == 0 ==> |rest| == 0 || (rest[0] != 'x' && rest[0] != 'X')
    ensures ParseInt(IntToDecimal(n) + rest) == Some(n)
  {
    var sign, ds := NotationParts(n);
    SignedDecimal(sign, ds, rest);
    AppendAssociates(sign, ds, rest);
    UntrimmedReading(sign + (ds + rest));
  }

  /** The decimal notation of `n` is a sign followed by the digits of its magnitude. */
  lemma NotationParts(n: int) returns (sign: string, ds: string)
    ensures IntToDecimal(n) == sign + ds && IsSign(sign)
    ensures |ds| > 0 && AllDigits(ds, 10) && Signed(sign, ValueOf(ds, 10)) == n
    ensures IsLoneZero(ds) ==> n == 0
  {
    var m: nat := if n < 0 then -n else n;
    ds := NatToDecimal(m);
    // `ds[..0]` is the empty string: a literal `""` would make Dafny unroll functions applied to it.
    sign := if n < 0 then ['-'] else ds[..0];
    ValueOfNatToDecimal(m);
    assert sign + ds == if n < 0 then "-" + ds else ds;
  }

  /** Concatenation associates. */
  lemma AppendAssociates(a: string, b: string, c: string)
    ensures (a + b) + c == a + (b + c)
  {
  }

  /** Text that does not start with white space is read by its sign and unsigned part alone. */
  lemma UntrimmedReading(t: string)
    requires |t| == 0 || !IsStrWhiteSpace(t[0])
    ensures ParseInt(t) == ParseSigned(t)
  {
  }

  /** A string starting with a decimal digit is not trimmed and reads unsigned. */
  lemma DigitNotTrimmed(w: string)
    requires |w| > 0 && '0' <= w[0] <= '9'
    ensures ParseInt(w) == ParseUnsigned(w)
  {
    assert !IsStrWhiteSpace(w[0]);
    assert TrimStart(w) == w;
  }

  /** Round trip: `parseInt(String(n)) === n` for every integer. */
  lemma ParseIntRoundTrip(n: int)
    ensures ParseInt(IntToDecimal(n)) == Some(n)
  {
    ParseIntDecimalPrefix(n, "");
    assert IntToDecimal(n) + "" == IntToDecimal(n);
  }

  /** No character of `s` is a decimal digit. */
  predicate NoDecimalDigit(s: string) {
    forall i :: 0 <= i < |s| ==> DigitValue(s[i], 10).None?
  }

  /** Without a decimal digit, the unsigned part is NaN, even after a `0x` prefix check. */
  lemma ParseUnsignedNeedsADigit(u: string)
    requires NoDecimalDigit(u)
    ensures ParseUnsigned(u) == None
  {
    assert |u| > 0 ==> DigitValue(u[0], 10).None?;
  }

  /** Without a decimal digit, the text after the white space has no number in it. */
  lemma TrimmedNeedsADigit(s: string)
    requires NoDecimalDigit(s)
    ensures ParseSigned(TrimStart(s)) == None
  {
    var t := TrimStart(s);
    NoDigitInSuffix(s, |s| - |t|);
    if |t| > 0 && (t[0] == '-' || t[0] == '+') {
      NoDigitInSuffix(t, 1);
      ParseUnsignedNeedsADigit(t[1..]);
    } else {
      ParseUnsignedNeedsADigit(t);
    }
  }

  /** A suffix of a string without decimal digits has none either. */
  lemma NoDigitInSuffix(s: string, k: nat)
    requires NoDecimalDigit(s) && k <= |s|
    ensures NoDecimalDigit(s[k..])
  {
    forall i | 0 <= i < |s[k..]| ensures DigitValue(s[k..][i], 10).None? {
      assert s[k..][i] == s[k + i];
    }
  }

  /** The same fact for every string, as the contract of `ParseInt` uses it. */
  lemma ParseSignedNeedsADigit(s: string)
    ensures NoDecimalDigit(s) ==> ParseSigned(TrimStart(s)) == None
  {
    if NoDecimalDigit(s) {
      TrimmedNeedsADigit(s);
    }
  }

  /** A bare `0x` prefix has no hexadecimal digits after it and is NaN. */
  lemma ParseIntBareHexPrefix()
    ensures ParseInt("0x") == None
  {
    var s := "0x";
    DigitNotTrimmed(s);
    assert |s| == 2 && s[0] == '0' && s[1] == 'x';
    assert ParseDigits(s[2..], 16) == None;
    assert ParseUnsigned(s) == ParseDigits(s[2..], 16);
  }

  /** A `0x` or `0X` prefix selects radix 16. */
  lemma HexNotation(u: string)
    requires |u| >= 2 && u[0] == '0' && (u[1] == 'x' || u[1] == 'X')
    ensures ParseInt(u) == ParseDigits(u[2..], 16)
  {
    DigitNotTrimmed(u);
  }

  /** The hexadecimal digits `11` read as 17. */
  lemma HexDigitsEleven()
    ensures ParseDigits("11", 16) == Some(17)
  {
    var w := "11";
    assert AllDigits(w, 16);
    DigitRunOfPrefix(w, "", 16);
    assert w + "" == w;
    assert w[..2] == w;
    assert ValueOf(w[..1], 16) == 1 by {
      assert w[..1][..0] == "";
    }
    assert w[..|w| - 1] == w[..1];
  }

  /** `0x11` is read in radix 16. */
  lemma ParseIntHex()
    ensures ParseInt("0x11") == Some(17)
  {
    var s := "0x11";
    HexNotation(s);
    assert s[2..] == "11";
    HexDigitsEleven();
  }

  /** Every character of `ws` is white space in the sense of `parseInt`. */
  predicate AllWhiteSpace(ws: string) {
    forall i :: 0 <= i < |ws| ==> IsStrWhiteSpace(ws[i])
  }

  /** The sign text `parseInt` reads: none, `+` or `-`. */
  predicate IsSign(sign: string) {
    |sign| <= 1 && (|sign| == 1 ==> sign[0] == '+' || sign[0] == '-')
  }

  /** The value of a digit string's number under a sign. */
  function Signed(sign: string, v: nat): int {
    if |sign| == 1 && sign[0] == '-' then -(v as int) else v
  }

  /**
   * `ws + sign + u` is the way `parseInt` splits its input: `ws` is all the
   * leading white space and `sign` all of the sign, so with no sign `u`
   * starts with neither white space nor a sign character.
   */
  predicate IsSplit(ws: string, sign: string, u: string) {
    && AllWhiteSpace(ws) && IsSign(sign)
    && (|sign| == 0 ==> |u| == 0 || (!IsStrWhiteSpace(u[0]) && u[0] != '+' && u[0] != '-'))
  }

  /** When the unsigned part has no number in it: no digit of the radix its prefix selects. */
  predicate HasNoNumber(u: string) {
    if HexPrefixed(u) then |u| == 2 || DigitValue(u[2], 16).None?
    else |u| == 0 || DigitValue(u[0], 10).None?
  }

  /** Every string splits into white space, a sign and the unsigned part. */
  lemma SplitExists(s: string) returns (ws: string, sign: string, u: string)
    ensures s == ws + (sign + u) && IsSplit(ws, sign, u)
  {
    var t := TrimStart(s);
    var k := |s| - |t|;
    ws := s[..k];
    assert AllWhiteSpace(ws) by {
      forall i | 0 <= i < |ws| ensures IsStrWhiteSpace(ws[i]) {
        assert ws[i] == s[i];
      }
    }
    assert s == ws + t;
    if |t| > 0 && (t[0] == '+' || t[0] == '-') {
      sign, u := t[..1], t[1..];
    } else {
      sign, u := t[..0], t;  // the empty sign, written without a literal for the same reason
    }
    assert t == sign + u;
  }

  /** `sign` applied to the unsigned reading. */
  function ApplySign(sign: string, r: Option<nat>): Option<int> {
    match r
    case None => None
    case Some(v) => Some(Signed(sign, v))
  }

  /** Text that does not start with white space is not trimmed. */
  lemma TrimmedReading(ws: string, t: string)
    requires AllWhiteSpace(ws)
    requires |t| == 0 || !IsStrWhiteSpace(t[0])
    ensures ParseInt(ws + t) == ParseSigned(t)
  {
    TrimStartSkips(ws, t);
  }

  /** The sign read in front of the unsigned part. */
  lemma SignedReading(sign: string, u: string)
    requires IsSign(sign)
    requires |sign| == 0 ==> |u| == 0 || (u[0] != '+' && u[0] != '-')
    ensures ParseSigned(sign + u) == ApplySign(sign, ParseUnsigned(u))
  {
    var t := sign + u;
    if |sign| == 1 {
      assert t[0] == sign[0] && t[1..] == u;
    } else {
      assert t == u;
    }
  }

  /** A split string reads as its sign applied to its unsigned part. */
  lemma SplitReading(ws: string, sign: string, u: string)
    requires IsSplit(ws, sign, u)
    ensures ParseInt(ws + (sign + u)) == ApplySign(sign, ParseUnsigned(u))
  {
    var t := sign + u;
    assert |t| == 0 || !IsStrWhiteSpace(t[0]) by {
      if |sign| == 1 {
        assert t[0] == sign[0];
      } else {
        assert t == u;
      }
    }
    TrimmedReading(ws, t);
    SignedReading(sign, u);
  }

  /** The unsigned part is NaN exactly when it has no digit of the radix its prefix selects. */
  lemma UnsignedNaN(u: string)
    ensures ParseUnsigned(u) == None <==> HasNoNumber(u)
  {
    if HexPrefixed(u) {
      assert |u[2..]| == 0 <==> |u| == 2;
      assert |u| > 2 ==> u[2..][0] == u[2];
    }
  }

  /**
   * `parseInt` is NaN exactly when, after the white space and the sign,
   * no digit of the selected radix follows.
   */
  lemma ParseIntIsNaN(ws: string, sign: string, u: string)
    requires IsSplit(ws, sign, u)
    ensures ParseInt(ws + (sign + u)) == None <==> HasNoNumber(u)
  {
    SplitReading(ws, sign, u);
    UnsignedNaN(u);
  }

  /** A lone `0` digit string: only then can a following `x` or `X` make a hexadecimal prefix. */
  predicate IsLoneZero(ds: string) {
    |ds| == 1 && ds[0] == '0'
  }

  /** Decimal digits followed by text that does not continue them read as their value. */
  lemma UnsignedDecimal(ds: string, rest: string)
    requires |ds| > 0 && AllDigits(ds, 10)
    requires |rest| == 0 || DigitValue(rest[0], 10).None?
    requires IsLoneZero(ds) ==> |rest| == 0 || (rest[0] != 'x' && rest[0] != 'X')
    ensures ParseUnsigned(ds + rest) == Some(ValueOf(ds, 10))
  {
    var w := ds + rest;
    assert w[0] == ds[0];
    assert !HexPrefixed(w) by {
      if |w| >= 2 && w[0] == '0' {
        if |ds| >= 2 {
          assert w[1] == ds[1];
          assert DigitValue(ds[1], 10).Some?;
        } else {
          assert w[1] == rest[0];
        }
      }
    }
    DigitRunOfPrefix(ds, rest, 10);
  }

  /** The signed decimal reading, after the white space. */
  lemma SignedDecimal(sign: string, ds: string, rest: string)
    requires IsSign(sign)
    requires |ds| > 0 && AllDigits(ds, 10)
    requires |rest| == 0 || DigitValue(rest[0], 10).None?
    requires IsLoneZero(ds) ==> |rest| == 0 || (rest[0] != 'x' && rest[0] != 'X')
    ensures ParseSigned(sign + (ds + rest)) == Some(Signed(sign, ValueOf(ds, 10)))
    ensures !IsStrWhiteSpace((sign + (ds + rest))[0])
  {
    UnsignedDecimal(ds, rest);
    var u := ds + rest;
    assert u[0] == ds[0] && DigitValue(u[0], 10).Some?;
    SignedReading(sign, u);
    assert (sign + u)[0] == if |sign| == 1 then sign[0] else u[0];
  }

  /**
   * The decimal reading, for any digit string: white space, a sign, decimal
   * digits (leading zeros allowed) and any text that does not continue
   * them parse to the signed value of the digits, unless the digits are a
   * lone `0` followed by `x` or `X`.
   */
  lemma ParseIntDecimal(ws: string, sign: string, ds: string, rest: string)
    requires AllWhiteSpace(ws) && IsSign(sign)
    requires |ds| > 0 && AllDigits(ds, 10)
    requires |rest| == 0 || DigitValue(rest[0], 10).None?
    requires IsLoneZero(ds) ==> |rest| == 0 || (rest[0] != 'x' && rest[0] != 'X')
    ensures ParseInt(ws + (sign + (ds + rest))) == Some(Signed(sign, ValueOf(ds, 10)))
  {
    SignedDecimal(sign, ds, rest);
    TrimmedReading(ws, sign + (ds + rest));
  }

  /** Hexadecimal digits after `0x` or `0X`, then text that does not continue them, read as their value. */
  lemma UnsignedHex(x: char, hs: string, rest: string)
    requires x == 'x' || x == 'X'
    requires |hs| > 0 && AllDigits(hs, 16)
    requires |rest| == 0 || DigitValue(rest[0], 16).None?
    ensures ParseUnsigned(['0', x] + (hs + rest)) == Some(ValueOf(hs, 16))
  {
    var w := ['0', x] + (hs + rest);
    assert HexPrefixed(w);
    assert w[2..] == hs + rest;
    DigitRunOfPrefix(hs, rest, 16);
  }

  /**
   * The hexadecimal reading: white space, a sign, `0x` or `0X`, hexadecimal
   * digits and any text that does not continue them parse to the signed
   * value of the digits.
   */
  lemma ParseIntHexadecimal(ws: string, sign: string, x: char, hs: string, rest: string)
    requires AllWhiteSpace(ws) && IsSign(sign)
    requires x == 'x' || x == 'X'
    requires |hs| > 0 && AllDigits(hs, 16)
    requires |rest| == 0 || DigitValue(rest[0], 16).None?
    ensures ParseInt(ws + (sign + (['0', x] + (hs + rest)))) == Some(Signed(sign, ValueOf(hs, 16)))
  {
    var u := ['0', x] + (hs + rest);
    UnsignedHex(x, hs, rest);
    assert u[0] == '0';
    SplitReading(ws, sign, u);
  }
}

=== FILE: phone.dfy ===
/**
 * The phone field's input handler, `value.replace(/[^0-9+]/g, '')`: every
 * character other than an ASCII digit or `+` is deleted.
 */
module Phone {

  /** The characters the pattern `[^0-9+]` does not match. */
  predicate IsAllowed(c: char) {
    ('0' <= c <= '9') || c == '+'
  }

  /** A value that contains only allowed characters. */
  predicate IsClean(s: string) {
    forall i :: 0 <= i < |s| ==> IsAllowed(s[i])
  }

  /** `t` can be obtained from `s` by deleting characters (greedy matching). */
  predicate IsSubsequence(t: string, s: string)
    decreases |s|
  {
    if |t| == 0 then true
    else if |s| == 0 then false
    else if t[0] == s[0] then IsSubsequence(t[1..], s[1..])
    else IsSubsequence(t, s[1..])
  }

  /**
   * The sanitiser. Its result is clean and keeps every occurrence of every
   * allowed character of the input.
   */
  function Sanitize(s: string): (r: string)
    ensures IsClean(r)
    ensures forall c :: IsAllowed(c) ==> multiset(r)[c] == multiset(s)[c]
    ensures |r| <= |s|
    decreases |s|
  {
    if |s| == 0 then []
    else
      assert s == [s[0]] + s[1..];
      (if IsAllowed(s[0]) then [s[0]] else []) + Sanitize(s[1..])
  }

  /** The sanitiser only deletes: its result is a subsequence of the input. */
  lemma {:induction false} SanitizeIsSubsequence(s: string)
    ensures IsSubsequence(Sanitize(s), s)
    decreases |s|
  {
    if |s| > 0 {
      SanitizeIsSubsequence(s[1..]);
      var r := Sanitize(s);
      if IsAllowed(s[0]) {
        assert r[0] == s[0] && r[1..] == Sanitize(s[1..]);
      } else if |r| > 0 {
        assert r == Sanitize(s[1..]);
        assert r[0] != s[0] by { assert IsAllowed(r[0]); }
      }
    }
  }

  /** A subsequence holds no more of any character than the sequence it comes from. */
  lemma {:induction false} SubsequenceCounts(t: string, s: string, c: char)
    requires IsSubsequence(t, s)
    ensures multiset(t)[c] <= multiset(s)[c]
    decreases |s|
  {
    if |t| > 0 {
      assert s == [s[0]] + s[1..];
      assert t == [t[0]] + t[1..];
      if t[0] == s[0] {
        SubsequenceCounts(t[1..], s[1..], c);
      } else {
        SubsequenceCounts(t, s[1..], c);
      }
    }
  }

  /**
   * The sanitiser's output is the only clean subsequence of the input that
   * keeps every allowed character: it is the order-preserving subsequence of
   * the allowed characters.
   */
  lemma {:induction false} SanitizeUnique(s: string, t: string)
    requires IsClean(t)
    requires IsSubsequence(t, s)
    requires forall c :: IsAllowed(c) ==> multiset(t)[c] == multiset(s)[c]
    ensures t == Sanitize(s)
    decreases |s|
  {
    if |s| == 0 {
      assert |t| == 0;
    } else {
      assert s == [s[0]] + s[1..];
      if |t| > 0 && t[0] == s[0] {
        assert t == [t[0]] + t[1..];
        assert IsClean(t[1..]) by {
          forall i | 0 <= i < |t[1..]| ensures IsAllowed(t[1..][i]) { assert t[1..][i] == t[i + 1]; }
        }
        assert forall c :: IsAllowed(c) ==> multiset(t[1..])[c] == multiset(s[1..])[c];
        SanitizeUnique(s[1..], t[1..]);
        assert IsAllowed(s[0]) by { assert IsAllowed(t[0]); }
      } else {
        assert IsSubsequence(t, s[1..]);
        if IsAllowed(s[0]) {
          SubsequenceCounts(t, s[1..], s[0]);
          assert false;
        }
        assert forall c :: IsAllowed(c) ==> multiset(s)[c] == multiset(s[1..])[c];
        SanitizeUnique(s[1..], t);
      }
    }
  }

  /** Clean input is left alone, and only clean input is. */
  lemma {:induction false} SanitizeFixesExactlyClean(s: string)
    ensures Sanitize(s) == s <==> IsClean(s)
    decreases |s|
  {
    if IsClean(s) {
      assert IsSubsequence(s, s) by { SubsequenceReflexive(s); }
      SanitizeUnique(s, s);
    }
  }

  /** Every sequence is a subsequence of itself. */
  lemma {:induction false} SubsequenceReflexive(s: string)
    ensures IsSubsequence(s, s)
    decreases |s|
  {
    if |s| > 0 {
      SubsequenceReflexive(s[1..]);
    }
  }

  /** Sanitising twice is sanitising once. */
  lemma SanitizeIdempotent(s: string)
    ensures Sanitize(Sanitize(s)) == Sanitize(s)
  {
    SanitizeFixesExactlyClean(Sanitize(s));
  }

  /** Sanitising distributes over concatenation, so pieces typed separately sanitise alike. */
  lemma {:induction false} SanitizeAppend(a: string, b: string)
    ensures Sanitize(a + b) == Sanitize(a) + Sanitize(b)
    decreases |a|
  {
    if |a| > 0 {
      assert (a + b)[1..] == a[1..] + b;
      SanitizeAppend(a[1..], b);
    } else {
      assert a + b == b;
    }
  }
}

=== FILE: reveal.dfy ===
/**
 * The reveal animator: an intersection observer whose callback adds the
 * `reveal--active` class to every entry that is intersecting. The class is
 * never removed, so the revealed elements form a set that only grows.
 */
module Reveal {

  /** Identity of a `.reveal` element on the page. */
  type ElementId = nat

  /** One `IntersectionObserverEntry` as the callback sees it. */
  datatype Entry = Entry(target: ElementId, isIntersecting: bool)

  /** The targets of the intersecting entries of a batch. */
  function IntersectingTargets(entries: seq<Entry>): set<ElementId>
  {
    set i | 0 <= i < |entries| && entries[i].isIntersecting :: entries[i].target
  }

  /** Splitting off the first entry of a batch. */
  lemma IntersectingTargetsCons(entries: seq<Entry>)
    requires |entries| > 0
    ensures IntersectingTargets(entries) ==
              (if entries[0].isIntersecting then {entries[0].target} else {}) + IntersectingTargets(entries[1..])
  {
    var tail := entries[1..];
    forall x | x in IntersectingTargets(entries)
      ensures x in (if entries[0].isIntersecting then {entries[0].target} else {}) + IntersectingTargets(tail)
    {
      var i :| 0 <= i < |entries| && entries[i].isIntersecting && entries[i].target == x;
      if i > 0 {
        assert tail[i - 1] == entries[i];
      }
    }
    forall x | x in IntersectingTargets(tail)
      ensures x in IntersectingTargets(entries)
    {
      var i :| 0 <= i < |tail| && tail[i].isIntersecting && tail[i].target == x;
      assert entries[i + 1] == tail[i];
    }
  }

  /**
   * The observer callback: `entries.forEach`, in order, adding the target of
   * each intersecting entry to the revealed set.
   */
  function OnEntries(revealed: set<ElementId>, entries: seq<Entry>): (r: set<ElementId>)
    ensures r == revealed + IntersectingTargets(entries)
    decreases |entries|
  {
    if |entries| == 0 then
      revealed
    else
      var e := entries[0];
      IntersectingTargetsCons(entries);
      OnEntries(if e.isIntersecting then revealed + {e.target} else revealed, entries[1..])
  }

  /**
   * Monotonicity: nothing revealed is ever hidden again, and every
   * intersecting entry of the batch ends up revealed.
   */
  lemma RevealIsMonotone(revealed: set<ElementId>, entries: seq<Entry>)
    ensures revealed <= OnEntries(revealed, entries)
    ensures forall i :: 0 <= i < |entries| && entries[i].isIntersecting ==>
              entries[i].target in OnEntries(revealed, entries)
  {
  }

  /** An element becomes revealed only through an intersecting entry of its own. */
  lemma RevealOnlyIntersecting(revealed: set<ElementId>, entries: seq<Entry>, x: ElementId)
    requires x !in revealed
    requires forall i :: 0 <= i < |entries| && entries[i].target == x ==> !entries[i].isIntersecting
    ensures x !in OnEntries(revealed, entries)
  {
  }

  /** A non-intersecting entry, wherever it sits in the batch, changes nothing. */
  lemma NonIntersectingIsNoOp(revealed: set<ElementId>, before: seq<Entry>, after: seq<Entry>, t: ElementId)
    ensures OnEntries(revealed, before + [Entry(t, false)] + after) == OnEntries(revealed, before + after)
  {
    var with := before + [Entry(t, false)] + after;
    var without := before + after;
    assert IntersectingTargets(with) == IntersectingTargets(without) by {
      forall x | x in IntersectingTargets(with) ensures x in IntersectingTargets(without) {
        var i :| 0 <= i < |with| && with[i].isIntersecting && with[i].target == x;
        if i < |before| {
          assert without[i] == with[i];
        } else {
          assert without[i - 1] == with[i];
        }
      }
      forall x | x in IntersectingTargets(without) ensures x in IntersectingTargets(with) {
        var i :| 0 <= i < |without| && without[i].isIntersecting && without[i].target == x;
        if i < |before| {
          assert with[i] == without[i];
        } else {
          assert with[i + 1] == without[i];
        }
      }
    }
  }

  /** Delivering two batches one after the other is delivering their concatenation. */
  lemma BatchesCompose(revealed: set<ElementId>, a: seq<Entry>, b: seq<Entry>)
    ensures OnEntries(OnEntries(revealed, a), b) == OnEntries(revealed, a + b)
  {
    var ab := a + b;
    assert IntersectingTargets(ab) == IntersectingTargets(a) + IntersectingTargets(b) by {
      forall x | x in IntersectingTargets(ab) ensures x in IntersectingTargets(a) + IntersectingTargets(b) {
        var i :| 0 <= i < |ab| && ab[i].isIntersecting && ab[i].target == x;
        if i >= |a| {
          assert b[i - |a|] == ab[i];
        }
      }
      forall x | x in IntersectingTargets(a) ensures x in IntersectingTargets(ab) {
        var i :| 0 <= i < |a| && a[i].isIntersecting && a[i].target == x;
        assert ab[i] == a[i];
      }
      forall x | x in IntersectingTargets(b) ensures x in IntersectingTargets(ab) {
        var i :| 0 <= i < |b| && b[i].isIntersecting && b[i].target == x;
        assert ab[i + |a|] == b[i];
      }
    }
  }

  /** Repeating a batch of intersection events reveals nothing new. */
  lemma RevealIdempotent(revealed: set<ElementId>, entries: seq<Entry>)
    ensures OnEntries(OnEntries(revealed, entries), entries) == OnEntries(revealed, entries)
  {
  }

  /** Only observed (`.reveal`) elements are ever revealed when the browser reports only those. */
  lemma RevealStaysObserved(observed: set<ElementId>, revealed: set<ElementId>, entries: seq<Entry>)
    requires revealed <= observed
    requires forall i :: 0 <= i < |entries| ==> entries[i].target in observed
    ensures OnEntries(revealed, entries) <= observed
  {
  }
}

=== FILE: tabs.dfy ===
/**
 * The tab switcher: clicking a `.tabs__btn` clears `active` from every button
 * and every `.tabs__panel`, then sets it on the clicked button and on the
 * panel whose id is the button's `data-tab`, if there is one (an empty
 * `data-tab` names none).
 */
module Tabs {
  import opened Wrappers

  /** A tab button: its `data-tab` attribute (absent when missing) and its `active` class. */
  datatype Button = Button(dataTab: Option<string>, active: bool)

  /** A tab panel: its id and its `active` class. */
  datatype Panel = Panel(id: string, active: bool)

  /** The buttons and the panels, each in document order. */
  datatype TabGroup = TabGroup(buttons: seq<Button>, panels: seq<Panel>)

  /**
   * The id looked up for a button: `btn.dataset.tab` is `undefined` when the
   * attribute is missing, and `getElementById` converts it to "undefined".
   */
  function LookupKey(b: Button): string {
    b.dataTab.GetOr("undefined")
  }

  /** The first panel, in document order, whose id is `id`. */
  function FirstWithId(panels: seq<Panel>, id: string): (r: Option<nat>)
    ensures r.Some? ==> r.value < |panels| && panels[r.value].id == id
    ensures r.Some? ==> forall k :: 0 <= k < r.value ==> panels[k].id != id
    ensures r.None? <==> forall k :: 0 <= k < |panels| ==> panels[k].id != id
    decreases |panels|
  {
    if |panels| == 0 then None
    else if panels[0].id == id then Some(0)
    else match FirstWithId(panels[1..], id)
      case None => None
      case Some(k) => Some(k + 1)
  }

  /**
   * `getElementById` over the panels. An empty `id` attribute gives an
   * element no ID at all, so the empty string finds nothing; any other id
   * finds the first panel carrying it.
   */
  function FindPanel(panels: seq<Panel>, id: string): (r: Option<nat>)
    ensures r.Some? ==> id != "" && r.value < |panels| && panels[r.value].id == id
    ensures r.Some? ==> forall k :: 0 <= k < r.value ==> panels[k].id != id
    ensures r.None? <==> id == "" || forall k :: 0 <= k < |panels| ==> panels[k].id != id
  {
    if id == "" then None else FirstWithId(panels, id)
  }

  /** Indices of the buttons carrying `active`. */
  function ActiveButtons(bs: seq<Button>): set<nat> {
    set j | 0 <= j < |bs| && bs[j].active
  }

  /** Indices of the panels carrying `active`. */
  function ActivePanels(ps: seq<Panel>): set<nat> {
    set j | 0 <= j < |ps| && ps[j].active
  }

  /** The buttons and panels carry the same attributes, whatever their classes. */
  predicate SameStructure(g: TabGroup, h: TabGroup) {
    && |g.buttons| == |h.buttons| && |g.panels| == |h.panels|
    && (forall j :: 0 <= j < |g.buttons| ==> g.buttons[j].dataTab == h.buttons[j].dataTab)
    && (forall j :: 0 <= j < |g.panels| ==> g.panels[j].id == h.panels[j].id)
  }

  /** Both `forEach(... remove('active'))` passes of the handler. */
  function ClearAll(g: TabGroup): (r: TabGroup)
    ensures SameStructure(g, r)
    ensures ActiveButtons(r.buttons) == {} && ActivePanels(r.panels) == {}
  {
    TabGroup(seq(|g.buttons|, j requires 0 <= j < |g.buttons| => g.buttons[j].(active := false)),
             seq(|g.panels|, j requires 0 <= j < |g.panels| => g.panels[j].(active := false)))
  }

  /** The panel a click on button `i` shows, as a set of at most one index. */
  function ShownPanel(g: TabGroup, i: nat): set<nat>
    requires i < |g.buttons|
  {
    match FindPanel(g.panels, LookupKey(g.buttons[i]))
    case None => {}
    case Some(k) => {k}
  }

  /** Activating one button among inactive ones leaves exactly that one active. */
  lemma OnlyButtonActive(bs: seq<Button>, i: nat)
    requires i < |bs| && ActiveButtons(bs) == {}
    ensures ActiveButtons(bs[i := bs[i].(active := true)]) == {i}
  {
    var cs := bs[i := bs[i].(active := true)];
    forall j | 0 <= j < |cs| ensures cs[j].active <==> j == i {
      assert j != i ==> j !in ActiveButtons(bs);
    }
  }

  /** Activating one panel among inactive ones leaves exactly that one active. */
  lemma OnlyPanelActive(ps: seq<Panel>, k: nat)
    requires k < |ps| && ActivePanels(ps) == {}
    ensures ActivePanels(ps[k := ps[k].(active := true)]) == {k}
  {
    var qs := ps[k := ps[k].(active := true)];
    forall j | 0 <= j < |qs| ensures qs[j].active <==> j == k {
      assert j != k ==> j !in ActivePanels(ps);
    }
  }

  /** Click handler of button `i`. */
  function Click(g: TabGroup, i: nat): (r: TabGroup)
    requires i < |g.buttons|
    ensures SameStructure(g, r)
    ensures ActiveButtons(r.buttons) == {i}
    ensures ActivePanels(r.panels) == ShownPanel(g, i)
    ensures |ActivePanels(r.panels)| <= 1
  {
    var cleared := ClearAll(g);
    var buttons := cleared.buttons[i := cleared.buttons[i].(active := true)];
    OnlyButtonActive(cleared.buttons, i);
    match FindPanel(cleared.panels, LookupKey(g.buttons[i]))
    case None =>
      TabGroup(buttons, cleared.panels)
    case Some(k) =>
      var panels := cleared.panels[k := cleared.panels[k].(active := true)];
      OnlyPanelActive(cleared.panels, k);
      TabGroup(buttons, panels)
  }

  /**
   * The outcome of a click depends only on which button was clicked and on
   * the attributes, not on which tab was active before; in particular a
   * second click on the same button changes nothing.
   */
  lemma ClickForgetsHistory(g: TabGroup, h: TabGroup, i: nat)
    requires i < |g.buttons|
    requires SameStructure(g, h)
    ensures Click(g, i) == Click(h, i)
  {
    var a := Click(g, i);
    var b := Click(h, i);
    assert a.buttons == b.buttons by {
      forall j | 0 <= j < |a.buttons| ensures a.buttons[j] == b.buttons[j] {
        assert a.buttons[j].active <==> j in ActiveButtons(a.buttons);
        assert b.buttons[j].active <==> j in ActiveButtons(b.buttons);
      }
    }
    assert FindPanel(g.panels, LookupKey(g.buttons[i])) == FindPanel(h.panels, LookupKey(h.buttons[i])) by {
      FindPanelSameIds(g.panels, h.panels, LookupKey(g.buttons[i]));
    }
    assert a.panels == b.panels by {
      forall j | 0 <= j < |a.panels| ensures a.panels[j] == b.panels[j] {
        assert a.panels[j].active <==> j in ActivePanels(a.panels);
        assert b.panels[j].active <==> j in ActivePanels(b.panels);
      }
    }
  }

  /** `FindPanel` looks only at the ids. */
  lemma FindPanelSameIds(ps: seq<Panel>, qs: seq<Panel>, id: string)
    requires |ps| == |qs|
    requires forall j :: 0 <= j < |ps| ==> ps[j].id == qs[j].id
    ensures FindPanel(ps, id) == FindPanel(qs, id)
  {
  }

  /** A button whose `data-tab` is empty shows no panel, even one whose id is empty too. */
  lemma EmptyTabShowsNoPanel(g: TabGroup, i: nat)
    requires i < |g.buttons|
    requires g.buttons[i].dataTab == Some("")
    ensures ActivePanels(Click(g, i).panels) == {}
    ensures Click(g, i).buttons[i].active
  {
    assert i in ActiveButtons(Click(g, i).buttons);
  }

  /** Clicking the same button twice is the same as clicking it once. */
  lemma ClickIdempotent(g: TabGroup, i: nat)
    requires i < |g.buttons|
    ensures Click(Click(g, i), i) == Click(g, i)
  {
    ClickForgetsHistory(Click(g, i), g, i);
  }

  /** A button whose `data-tab` names no panel still becomes active, and every panel ends hidden. */
  lemma ClickWithoutPanel(g: TabGroup, i: nat)
    requires i < |g.buttons|
    requires forall k :: 0 <= k < |g.panels| ==> g.panels[k].id != LookupKey(g.buttons[i])
    ensures ActivePanels(Click(g, i).panels) == {}
    ensures Click(g, i).buttons[i].active
  {
    assert i in ActiveButtons(Click(g, i).buttons);
  }
}

=== FILE: wrappers.dfy ===
/** Optional values, used for `null`, `undefined` and `NaN`. */
module Wrappers {

  /** A value that may be absent. */
  datatype Option<+T> = None | Some(value: T) {

    /** Returns the value in Some, or `default` when None. */
    function GetOr(default: T): (r: T)
      ensures Some? ==> r == value
      ensures None? ==> r == default
    {
      match this
      case Some(v) => v
      case None => default
    }
  }
}
